=== FILE: README.md ===
# Kaggle kernel profiler: the report-building core

`profile_kernels.py` scrapes the notebook listing of a Kaggle competition.
For each kernel it reads the version history and fetches every revision's
page. It takes the revision's public score from that page. It then writes a
Markdown report: a `### Created at …` line, then one profile per kernel. A
profile is a heading, the author card, bullets, and a table with one row per
revision.

This project models the deterministic part of that pipeline in Dafny:

- `Text`: Python's `sep.join`, `s.split(c)`, `lstrip`/`rstrip`/`strip`
  (with Python's whitespace set) and `s * n`, with round-trip lemmas.
- `Markdown`: `make_link`, `make_row`, `make_table` and `make_profile`,
  including the `.strip()` of the profile template.
- `Revisions`: the `process_version_item` step and its `reduce` fold over the
  version table. The fold is proved equal to a reference filter-map. An
  alternate form of the same fold, written as a loop, is proved equal to it;
  the report pipeline uses the fold itself.
- `Score`: the regular expression `"publicScore":"(.+?)"` as `re.search`
  applies it. `.` never matches a newline, the group is lazy and the leftmost
  position wins. Also modelled: the sentinel `0` of `parse_public_score` and
  the `-` that replaces a zero score in the Score column.
- `Report`: the per-revision rows, the per-kernel table and profile, the
  report join, and the abort of the whole run when `float()` rejects a
  captured score.
- `Wrappers`: `Option`, `Result` and `MapAll`. `MapAll` is a recursive map
  that stops at the first failure, as a Python exception ends the `for` loop.

Inputs the program gets from the outside world are parameters:

- the page body of each revision URL (`pages`);
- `float()` on a captured text (`toFloat`, where `None` means `ValueError`);
- `str()` of a score (`show`);
- the UTC timestamp, as text.

Extracted HTML fields arrive already as values: kernel title and URL,
`KernelMeta`, and one `VersionRow` per version-table row with an optional
`href`.

## Model

| member | source | states |
|---|---|---|
| Wrappers.MapAll | profile_kernels.py:197-207 | The loop yields a result for every element, in order, exactly when every step succeeds. Otherwise it yields the error of the first failing step, and every earlier step succeeded. |
| Text.Join | profile_kernels.py:96 | No contract of its own; its body is Python's `sep.join`, used by the joins at lines 96, 108 and 217. Its properties are Text.SplitJoin, Text.JoinSplit and Text.JoinAppend. |
| Text.LStrip | profile_kernels.py:133 | `lstrip` returns a suffix of its input. Everything removed is whitespace, and the result does not start with whitespace. |
| Text.RStrip | profile_kernels.py:133 | `rstrip` returns a prefix of its input. Everything removed is whitespace, and the result does not end with whitespace. |
| Text.RStripAfter | profile_kernels.py:133 | Trailing whitespace removal never reaches past a visible character: `rstrip(a + b) == a + rstrip(b)` when `a` ends visibly. |
| Text.Strip | profile_kernels.py:133 | No contract of its own; its body is `rstrip` after `lstrip`, which is `.strip()`. Its properties come from Text.LStrip and Text.RStrip, and Markdown.StripTemplate applies them to the profile template. |
| Text.SplitJoin | profile_kernels.py:108 | Splitting a newline-join of one or more one-line texts at newlines gives back exactly those texts. Zero texts join to the empty text, which splits to one empty piece. |
| Text.JoinSplit | profile_kernels.py:108 | Joining the pieces of a split with the separator gives back the original text. |
| Text.SplitAt | profile_kernels.py:108 | Splitting at one separator occurrence splits the two sides independently. |
| Markdown.MakeLink | profile_kernels.py:85-89 | No contract of its own; its body is `[` + text + `](` + url + `)`. Its properties are Markdown.ParseLink and Markdown.LinkRoundTrip. |
| Markdown.ParseLink | profile_kernels.py:85-89 | Any link read back re-renders to the same text, and its link text holds no `]`. |
| Markdown.LinkRoundTrip | profile_kernels.py:85-89 | A link whose text has no `]` reads back as exactly its text and URL. |
| Markdown.MakeRow | profile_kernels.py:92-97 | A row has at least two characters and opens and closes with `\|`. |
| Markdown.RowRoundTrip | profile_kernels.py:92-97 | When there is at least one cell and no cell holds a `\|`, splitting the inside of a row at `\|` gives back the cells in order. A row of no cells is `\|\|`, whose inside splits to one empty piece. So there is exactly one bar between consecutive cells. |
| Markdown.RowIsOneLine | profile_kernels.py:92-97 | A row of one-line cells is one line. |
| Markdown.Dashes | profile_kernels.py:106 | Its contract states only the length, one cell per column; the contents are in Markdown.SeparatorRow. |
| Markdown.SeparatorRow | profile_kernels.py:106 | The separator row under `n >= 1` columns is `\|` followed by `n` copies of `-\|`. Under no columns it is `\|\|`. |
| Markdown.Rows | profile_kernels.py:107 | Its contract states only the length, one row per tuple; the contents are in Markdown.TableLines. |
| Markdown.MakeTable | profile_kernels.py:100-108 | A table ends with `\|`, so it has no trailing newline. |
| Markdown.TableLines | profile_kernels.py:100-108 | Read line by line, a table of one-line cells is the header row, the separator row, then one row per tuple in input order: `\|data\| + 2` lines. |
| Markdown.TwoColumnTable | profile_kernels.py:100-108 | A table of one tuple under two columns is exactly `\|a\|b\|`, `\|-\|-\|` and `\|x\|y\|` on three lines. |
| Markdown.Thumbnail | profile_kernels.py:115-117 | No contract of its own; its body is the `<img>` of the avatar inside an `<a>` to the author's page. It is one line when the metadata is (Markdown.ThumbnailIsOneLine), which Markdown.ProfileLines uses. |
| Markdown.ProfileHead | profile_kernels.py:118-131 | Twelve lines: the template's lines above the table, with the kernel link, thumbnail, author link and bullets filled in. Its properties are Markdown.ProfileLines and Markdown.ProfileLinesWithTable. |
| Markdown.ProfileTemplate | profile_kernels.py:119-133 | No contract of its own; its body is the triple-quoted template before `.strip()`, a newline-join opening and closing with an empty line. Its properties are Markdown.StripTemplate and Markdown.MakeProfile. |
| Markdown.StripTemplate | profile_kernels.py:119-133 | Stripping the profile template removes only its leading newline and the trailing whitespace of the `Last updated` value, blank line and table. |
| Markdown.MakeProfile | profile_kernels.py:111-133 | A profile is the first ten template lines, then `- Last updated:`, then the right-stripped rest. |
| Markdown.ProfileBeginsWithBr | profile_kernels.py:119-120 | Every profile opens with `<br>`. |
| Markdown.ProfileLines | profile_kernels.py:119-133 | With one-line fields, the profile reads `<br>`, blank, `# ` + kernel link, blank, avatar, blank, then the Author, Best score, Vote count and Comment count bullets in that order. Last comes the stripped `Last updated` part. |
| Markdown.ProfileEndsWithTable | profile_kernels.py:119-133 | When the table ends visibly, the profile is the twelve head lines, a newline and the table. It ends with a blank line followed by the table. |
| Markdown.ProfileLinesWithTable | profile_kernels.py:111-133 | With a one-line kernel link and one-line card fields, the profile's lines are the twelve head lines followed by the table's own lines. |
| Revisions.ProcessVersionItem | profile_kernels.py:186-192 | No contract of its own; its body leaves the accumulator alone for a row without `href` and otherwise appends (version, commit time, `TOP_URL` + href). Its properties are Revisions.ReduceIsFilter and Revisions.SurvivorMembership. |
| Revisions.Reduce | profile_kernels.py:194 | No contract of its own; its body is the left fold of `functools.reduce` over the rows. Its properties are Revisions.ReduceIsFilter and Revisions.SurvivorsAppend. |
| Revisions.VersionItems | profile_kernels.py:194 | No contract of its own; its body is the fold from `[]`. Its properties are Revisions.VersionItemsAreSurvivors, Revisions.SurvivorCount and Revisions.VersionItemsSummary. |
| Revisions.ReduceIsFilter | profile_kernels.py:186-194 | The fold appends to its seed exactly the linked rows, described as (version, commit time, `TOP_URL` + href), in table order. |
| Revisions.VersionItemsAreSurvivors | profile_kernels.py:194 | Folding from `[]` equals the reference filter-map. |
| Revisions.SurvivorCount | profile_kernels.py:186-194 | N linked rows and M unlinked rows give exactly N revisions. |
| Revisions.SurvivorsAppend | profile_kernels.py:186-194 | The fold commutes with cutting the table in two, so order is kept. |
| Revisions.SurvivorMembership | profile_kernels.py:186-194 | A revision is collected exactly when some linked row describes it. |
| Revisions.VersionItemsSummary | profile_kernels.py:186-194 | Count, split and membership of the fold's result, together. |
| Revisions.CollectRevisions | profile_kernels.py:194 | An alternate form of the fold, not used by the pipeline: the fold run as a loop returns the reference filter-map and as many revisions as there are linked rows. |
| Score.CapturePublicScore | profile_kernels.py:73 | No contract of its own; its body is `re.search` from position 0. Its properties are Score.CaptureIsFirstMatch, Score.NoKeyNoCapture and Score.EmptyValueCapture. |
| Score.CloseQuote | profile_kernels.py:73 | The lazy scan stops at the first `"` with no newline before it. It fails exactly when every later `"` has a newline before it. |
| Score.MatchAtSound | profile_kernels.py:73 | A match found at a position satisfies the declarative reading of the pattern. |
| Score.MatchAtComplete | profile_kernels.py:73 | Every match of the declarative reading at a position is the one the scan finds. |
| Score.SearchFromSound | profile_kernels.py:73 | The search finds nothing exactly when no position from the start on matches. Otherwise it finds the group of the leftmost matching position. |
| Score.CaptureIsFirstMatch | profile_kernels.py:73 | The captured text is `t` exactly when `t` is the group of the leftmost match. Nothing is captured exactly when the pattern matches nowhere. |
| Score.NoKeyNoCapture | profile_kernels.py:73 | A page without the literal `"publicScore":"` captures nothing. |
| Score.EmptyValueCapture | profile_kernels.py:73 | An empty value `"publicScore":""` followed by `,"` captures `",` instead of nothing. |
| Score.ParsePublicScore | profile_kernels.py:73-74 | No capture gives the sentinel 0. The parse succeeds exactly when nothing is captured or `float()` accepts the capture. An error means a text was captured and `float()` rejects exactly that text. A success after a capture is exactly the value `float()` gives the captured text. |
| Score.ScoreIsFirstGroup | profile_kernels.py:73-74 | When the leftmost match's group is a text `float()` accepts, the page's score is that value. |
| Score.SentinelWhenKeyAbsent | profile_kernels.py:73-74 | A page without `"publicScore":"` scores the sentinel 0, whatever `float()` does. |
| Score.ScoreCell | profile_kernels.py:204 | No contract of its own; its body is `score if score != 0 else '-'` with `str` applied. Its properties are Score.PlaceholderIffSentinel and Score.GenuineZeroLooksAbsent. |
| Score.PlaceholderIffSentinel | profile_kernels.py:204 | The Score cell is `-` exactly when the score equals the sentinel, provided no rendered number reads `-`. |
| Score.GenuineZeroLooksAbsent | profile_kernels.py:199-204 | A page whose real score is 0 and a page with no score give the same `-` cell. |
| Report.ScoreRow | profile_kernels.py:201-207 | A revision row has one cell per column of the table header. Its Score cell is the score cell of the parsed score, `-` for the sentinel, and its Link cell is the `Open` link to the revision. |
| Report.ScoreRevision | profile_kernels.py:197-207 | No contract of its own; its body fetches the revision's page, parses its score and builds its row, or passes on the parse error. Its properties are Report.KernelOkIff and Report.KernelErrorIsRejectedScore. |
| Report.ScoreRows | profile_kernels.py:197-207 | No contract of its own; its body is Wrappers.MapAll of Report.ScoreRevision over the revisions. Its properties are Report.ScoredTableLines and Report.KernelOkIff. |
| Report.KernelTable | profile_kernels.py:210-211 | No contract of its own; its body is `make_table` of the header and the scored rows, or the first error. Its properties are Report.KernelTableShape and Report.KernelOkIff. |
| Report.KernelProfile | profile_kernels.py:212-213 | No contract of its own; its body is `make_profile` of the kernel link, its table and its metadata, or the first error. Its properties are Report.KernelProfileHeadings and Report.KernelErrorIsRejectedScore. |
| Report.AssembleReport | profile_kernels.py:217 | No contract of its own; its body is the `\n\n`-join of the `### Created at` line and the profiles. Its properties are Report.ReportSeparators and Report.ReportLines. |
| Report.BuildReport | profile_kernels.py:166-217 | No contract of its own; its body builds every kernel's profile in listing order and joins them, or yields the first error. Its properties are Report.ReportHeadings, Report.ReportWrittenIff and Report.ReportErrorIsRejectedScore. |
| Report.Profiles | profile_kernels.py:166-213 | No contract of its own; its body is Wrappers.MapAll of Report.KernelProfile over the kernels in listing order, as the loop and `profiles.append`. Its properties are Report.ReportHeadings and Report.ReportWrittenIff. |
| Report.CreatedAt | profile_kernels.py:217 | No contract of its own; its body is the f-string `### Created at {timestamp}`. Its properties are Report.ReportSeparators and Report.ReportLines. |
| Report.HeaderRow | profile_kernels.py:210-211 | The header row is the five titles Title, Version, Score, Committed at and Link between bars. |
| Report.DashRow | profile_kernels.py:106 | The separator row of a revision table is `\|-\|-\|-\|-\|-\|`. |
| Report.RevisionTableLines | profile_kernels.py:210-211 | The lines of a revision table of one-line cells are the header row, `\|-\|-\|-\|-\|-\|`, then one row per revision. |
| Report.KernelOkIff | profile_kernels.py:197-213 | A kernel's table, and so its profile, is built exactly when every linked revision's captured score is accepted by `float()`. |
| Report.ScoredTableLines | profile_kernels.py:197-211 | A table of scored rows whose cells are one line has the header row and the separator row, then for each revision in order the row of its title, version, score cell, commit time and `Open` link. |
| Report.KernelTableShape | profile_kernels.py:186-211 | When every linked revision is scored, the kernel's table is built. Its lines are the header row, the separator row, then one row per linked version in table order, each carrying that version's parsed score. |
| Report.KernelProfileHeadings | profile_kernels.py:211-213 | When every linked revision is scored, the kernel's profile is built and has exactly one `# ` heading line, the kernel's linked title. |
| Report.ReportSeparators | profile_kernels.py:217 | The report is `### Created at ` + timestamp. Then, for each profile in order, comes exactly one `\n\n` separator and the profile. |
| Report.ReportLines | profile_kernels.py:217 | Read line by line, the report is its header line, then a blank line before each profile's own lines. |
| Report.ReportHeadings | profile_kernels.py:166-217 | When every linked revision of every kernel is scored, the report is written. It has one `# ` heading per kernel, in listing order, each the kernel's linked title. |
| Report.ReportWrittenIff | profile_kernels.py:197-217 | In the model, a report is produced exactly when every linked revision of every kernel yields a score. |
| Report.KernelErrorIsRejectedScore | profile_kernels.py:197-199 | In the model, a kernel whose profile fails failed on the captured score text of one of its linked revisions, and `float()` rejects that text. |
| Report.ReportErrorIsRejectedScore | profile_kernels.py:197-199 | In the model, when no report is produced, the error is the captured score text of a linked revision of some kernel, and `float()` rejects it. |

## Left out

- Browser navigation: the Selenium driver, `WebDriverWait` timeouts, clicks and `page_source` (lines 20, 143-157, 171-179). These are browser I/O.
- `requests.get` of each revision page (line 198). This is network I/O, so the page body is the parameter `pages`.
- HTML parsing: `make_soup`, `get_kernel_meta`, the CSS selectors and `find` calls (lines 40-59, 158-163, 183-184, 187-188). This is a foreign library; the extracted fields are inputs.
  - Because of this, a version row whose second anchor or top-level span is missing is not modelled. Python raises `IndexError` or `AttributeError` there.
  - The `.strip()` on the version label and commit time is not modelled either. Those texts arrive already stripped.
- `float()` (lines 74, 82): floating-point parsing is the parameter `toFloat`, and `str()` of a score is the parameter `show`.
  - Scores are reals, so there is no `-0.0`, `nan` or `inf`. In Python, `-0.0 != 0` is false, so `-0.0` also shows `-`.
- Other failures that abort the run: a failed fetch (line 198), an expired wait (lines 146, 151, 157, 174, 178) and a missing version table (lines 183-184) also reach the catch-all handler and leave no report. The model's only error is a rejected score.
- `parse_best_public_score` (lines 77-82): nothing calls it.
- `utc_timestamp` (line 66) reads the clock; the timestamp is a text parameter.
- Process plumbing: `parse_args`, `chromedriver_exists`, the progress `print`, the write of `result.md`, and the catch-all `traceback` handler with `driver.quit()` (lines 24-37, 168, 216-222). These are CLI, filesystem and process concerns. The model stops at the report text, or at the error that keeps it from being written.
- Text.Repeat: its contract states only the length. The contents of `"-|" * n` are stated through Markdown.SeparatorRow.
- Score.PlaceholderIffSentinel: holds only when no rendered number is the text `-`. Python's `str` of a float never is, but `show` is a parameter.
- Markdown.ProfileLines, Markdown.ProfileLinesWithTable, Markdown.TableLines, Report.RevisionTableLines, Report.ScoredTableLines, Report.KernelTableShape, Report.KernelProfileHeadings, Report.ReportHeadings: these line-by-line readings assume every scraped field, rendered score and timestamp is one line. A field holding a newline would add lines.
- Markdown.ProfileEndsWithTable, Markdown.ProfileLinesWithTable: these assume the table ends in a visible character. Every table `make_table` builds ends in `|` (Markdown.MakeTable).

=== FILE: markdown.dfy ===
/**
 The Markdown builders of the report (profile_kernels.py: make_link, make_row,
 make_table, make_profile). All cells are already text, i.e. Python's `str` has
 been applied to each item before `make_row` sees it.
 */
module Markdown {

  import opened Wrappers
  import opened Text

  /** `[text](url)`. */
  function MakeLink(text: string, url: string): string {
    "[" + text + "](" + url + ")"
  }

  /** Reads a Markdown link back into its text and URL: the text ends at the first `]`. */
  function ParseLink(s: string): (r: Option<(string, string)>)
    ensures r.Some? ==> MakeLink(r.value.0, r.value.1) == s && ']' !in r.value.0
  {
    if |s| >= 4 && s[0] == '[' && s[|s| - 1] == ')' then
      match IndexOf(s, ']', 1)
      case Some(i) =>
        if i + 2 <= |s| - 1 && s[i + 1] == '(' then
          assert s == "[" + s[1..i] + "](" + s[i + 2..|s| - 1] + ")";
          Some((s[1..i], s[i + 2..|s| - 1]))
        else None
      case None => None
    else None
  }

  /** A link whose text has no `]` reads back as exactly its text and URL. */
  lemma LinkRoundTrip(text: string, url: string)
    requires ']' !in text
    ensures ParseLink(MakeLink(text, url)) == Some((text, url))
  {
    var s := MakeLink(text, url);
    assert s[1..|text| + 1] == text;
    assert s[|text| + 1] == ']';
    assert s[|text| + 3..|s| - 1] == url;
  }

  /** A link is one line when its text and URL are. */
  lemma LinkIsOneLine(text: string, url: string)
    requires '\n' !in text && '\n' !in url
    ensures '\n' !in MakeLink(text, url)
  {
  }

  /** One row of a Markdown table: `|a|b|c|`. */
  function MakeRow(items: seq<string>): (r: string)
    ensures |r| >= 2 && r[0] == '|' && r[|r| - 1] == '|'
  {
    "|" + Join("|", items) + "|"
  }

  /** The cells strictly between the outer bars of a row. */
  function Inner(row: string): string
    requires |row| >= 2
  {
    row[1..|row| - 1]
  }

  /** Splitting a row's inside at `|` gives back its cells, in order, when no cell holds a `|`. */
  lemma RowRoundTrip(items: seq<string>)
    requires |items| >= 1 && NoneContains(items, '|')
    ensures Split(Inner(MakeRow(items)), '|') == items
  {
    assert Inner(MakeRow(items)) == Join("|", items);
    SplitJoin(items, '|');
  }

  /** A row is one line when none of its cells holds a newline. */
  lemma RowIsOneLine(items: seq<string>)
    requires NoneContains(items, '\n')
    ensures '\n' !in MakeRow(items)
  {
    JoinAvoids("|", items, '\n');
  }

  /** The cells of the separator row under a header of `n` columns. */
  function Dashes(n: nat): (r: seq<string>)
    ensures |r| == n
  {
    seq(n, _ => "-")
  }

  lemma {:induction false} DashesJoin(n: nat)
    requires n >= 1
    ensures Join("|", Dashes(n)) + "|" == Repeat("-|", n)
    decreases n
  {
    if n > 1 {
      assert Dashes(n)[1..] == Dashes(n - 1);
      DashesJoin(n - 1);
    }
  }

  /** The separator row is `|` followed by `-|` once per column; a table with no columns gets `||`. */
  lemma SeparatorRow(n: nat)
    ensures n == 0 ==> MakeRow(Dashes(n)) == "||"
    ensures n >= 1 ==> MakeRow(Dashes(n)) == "|" + Repeat("-|", n)
  {
    if n >= 1 {
      DashesJoin(n);
    }
  }

  /** The rows of `data`, one per tuple, in order. */
  function Rows(data: seq<seq<string>>): (r: seq<string>)
    ensures |r| == |data|
  {
    seq(|data|, k requires 0 <= k < |data| => MakeRow(data[k]))
  }

  /** Every cell of every tuple is on one line. */
  predicate CellsOneLine(data: seq<seq<string>>) {
    forall k :: 0 <= k < |data| ==> NoneContains(data[k], '\n')
  }

  lemma {:induction false} JoinEndsWithLast(sep: string, xs: seq<string>)
    requires |xs| >= 1
    ensures EndsWith(Join(sep, xs), xs[|xs| - 1])
    decreases |xs|
  {
    if |xs| > 1 {
      JoinEndsWithLast(sep, xs[1..]);
    }
  }

  /** The whole table: header row, separator row, then one row per tuple, joined by newlines. */
  function MakeTable(header: seq<string>, data: seq<seq<string>>): (r: string)
    ensures |r| >= 2 && r[|r| - 1] == '|'
  {
    var rows := [MakeRow(header), MakeRow(Dashes(|header|))] + Rows(data);
    JoinEndsWithLast("\n", rows);
    Join("\n", rows)
  }

  /**
   Read line by line, a table whose cells are one-line texts has exactly
   `|data| + 2` lines: the header row, the separator row, then `data` in order.
   */
  lemma TableLines(header: seq<string>, data: seq<seq<string>>)
    requires NoneContains(header, '\n') && CellsOneLine(data)
    ensures Lines(MakeTable(header, data)) == [MakeRow(header), MakeRow(Dashes(|header|))] + Rows(data)
    ensures |Lines(MakeTable(header, data))| == |data| + 2
    ensures forall k :: 0 <= k < |data| ==> Lines(MakeTable(header, data))[k + 2] == MakeRow(data[k])
  {
    var rows := [MakeRow(header), MakeRow(Dashes(|header|))] + Rows(data);
    RowIsOneLine(header);
    RowIsOneLine(Dashes(|header|));
    forall k | 0 <= k < |data|
      ensures '\n' !in Rows(data)[k]
    {
      RowIsOneLine(data[k]);
    }
    assert NoneContains(rows, '\n');
    SplitJoin(rows, '\n');
  }

  /** The author fields a kernel card shows, as displayed text. */
  datatype KernelMeta = KernelMeta(
    authorName: string,
    authorUrl: string,
    thumbnailSrc: string,
    voteCount: string,
    commentCount: string,
    lastUpdated: string,
    bestScore: string)

  /** The author's avatar wrapped in a link to the author's page. */
  function Thumbnail(meta: KernelMeta): string {
    "<a href=\"" + meta.authorUrl + "\">"
      + "<img src=\"" + meta.thumbnailSrc + "\" alt=\"" + meta.authorName + "\" width=\"72\" height=\"72\">"
      + "</a>"
  }

  /** The lines of a profile above its table, the last one blank. */
  function ProfileHead(kernelLink: string, meta: KernelMeta): (r: seq<string>)
    ensures |r| == 12
  {
    [ "<br>",
      "",
      "# " + kernelLink,
      "",
      Thumbnail(meta),
      "",
      "- Author: " + MakeLink(meta.authorName, meta.authorUrl),
      "- Best score: " + meta.bestScore,
      "- Vote count: " + meta.voteCount,
      "- Comment count: " + meta.commentCount,
      "- Last updated: " + meta.lastUpdated,
      "" ]
  }

  /** The profile's triple-quoted template before `.strip()`: it opens and closes with a newline. */
  function ProfileTemplate(kernelLink: string, table: string, meta: KernelMeta): string {
    Join("\n", [""] + ProfileHead(kernelLink, meta) + [table, ""])
  }

  /** The template is the head, the table, each on its own line(s), between a leading and a trailing newline. */
  lemma {:induction false} TemplateFraming(h: seq<string>, table: string)
    requires |h| >= 1
    ensures Join("\n", [""] + h + [table, ""]) == "\n" + Join("\n", h + [table]) + "\n"
  {
    assert [""] + h + [table, ""] == [""] + ((h + [table]) + [""]);
    JoinTwoOrMore("\n", "", (h + [table]) + [""]);
    JoinAppend("\n", h + [table], [""]);
  }

  /** The last head line, the blank line and the table, split off after the colon of `- Last updated:`. */
  lemma {:induction false} TemplateTail(h: seq<string>, lastUpdated: string, table: string)
    requires |h| == 12 && h[10] == "- Last updated: " + lastUpdated && h[11] == ""
    ensures Join("\n", h + [table])
         == Join("\n", h[..10]) + "\n- Last updated:" + (" " + lastUpdated + "\n\n" + table)
  {
    assert h + [table] == h[..10] + [h[10], "", table];
    JoinAppend("\n", h[..10], [h[10], "", table]);
    JoinTwoOrMore("\n", h[10], ["", table]);
    JoinTwoOrMore("\n", "", [table]);
  }

  /**
   Stripping a template whose first line starts with a visible character removes
   its leading newline and the trailing whitespace of `last updated, blank
   line, table`, and never reaches the fixed text before it.
   */
  lemma StripTemplate(h: seq<string>, lastUpdated: string, table: string)
    requires |h| == 12 && h[10] == "- Last updated: " + lastUpdated && h[11] == ""
    requires |h[0]| > 0 && !IsSpace(h[0][0])
    ensures Strip(Join("\n", [""] + h + [table, ""]))
         == Join("\n", h[..10]) + "\n- Last updated:" + RStrip(" " + lastUpdated + "\n\n" + table)
  {
    var x := Join("\n", h + [table]);
    TemplateFraming(h, table);
    assert h + [table] == [h[0]] + (h + [table])[1..];
    JoinTwoOrMore("\n", h[0], (h + [table])[1..]);
    assert x[0] == h[0][0];
    LStripNewline(x + "\n");
    assert "\n" + x + "\n" == "\n" + (x + "\n");
    assert (x + "\n")[..|x + "\n"| - 1] == x;
    TemplateTail(h, lastUpdated, table);
    RStripAfter(Join("\n", h[..10]) + "\n- Last updated:", " " + lastUpdated + "\n\n" + table);
  }

  /** make_profile: the stripped template. */
  function MakeProfile(kernelLink: string, table: string, meta: KernelMeta): (r: string)
    ensures r == Join("\n", ProfileHead(kernelLink, meta)[..10]) + "\n- Last updated:"
                 + RStrip(" " + meta.lastUpdated + "\n\n" + table)
  {
    StripTemplate(ProfileHead(kernelLink, meta), meta.lastUpdated, table);
    Strip(ProfileTemplate(kernelLink, table, meta))
  }

  /** Every text field of the card is on one line. */
  predicate MetaOneLine(meta: KernelMeta) {
    && '\n' !in meta.authorName && '\n' !in meta.authorUrl && '\n' !in meta.thumbnailSrc
    && '\n' !in meta.voteCount && '\n' !in meta.commentCount && '\n' !in meta.lastUpdated
    && '\n' !in meta.bestScore
  }

  lemma HeadOneLine(kernelLink: string, meta: KernelMeta)
    requires '\n' !in kernelLink && MetaOneLine(meta)
    ensures NoneContains(ProfileHead(kernelLink, meta), '\n')
  {
    var h := ProfileHead(kernelLink, meta);
    LinkIsOneLine(meta.authorName, meta.authorUrl);
    ThumbnailIsOneLine(meta);
    forall k | 0 <= k < 12
      ensures '\n' !in h[k]
    {
      if k == 2 {
        assert h[k] == "# " + kernelLink;
      } else if k == 4 {
        assert h[k] == Thumbnail(meta);
      } else if k == 6 {
        assert h[k] == "- Author: " + MakeLink(meta.authorName, meta.authorUrl);
      }
    }
  }

  lemma ThumbnailIsOneLine(meta: KernelMeta)
    requires MetaOneLine(meta)
    ensures '\n' !in Thumbnail(meta)
  {
  }

  /** Every profile opens with `<br>`. */
  lemma ProfileBeginsWithBr(kernelLink: string, table: string, meta: KernelMeta)
    ensures StartsWith(MakeProfile(kernelLink, table, meta), "<br>")
  {
    var h := ProfileHead(kernelLink, meta)[..10];
    JoinTwoOrMore("\n", h[0], h[1..]);
    assert h == [h[0]] + h[1..];
  }

  /** Lines of the stripped template in terms of an arbitrary twelve-line head. */
  lemma {:induction false} StrippedLines(h: seq<string>, lastUpdated: string, table: string)
    requires |h| == 12 && NoneContains(h, '\n')
    ensures Lines(Join("\n", h[..10]) + "\n- Last updated:" + RStrip(" " + lastUpdated + "\n\n" + table))
         == h[..10] + Lines("- Last updated:" + RStrip(" " + lastUpdated + "\n\n" + table))
  {
    var tail := RStrip(" " + lastUpdated + "\n\n" + table);
    var rest := "- Last updated:" + tail;
    var j := Join("\n", h[..10]);
    assert "\n- Last updated:" == "\n" + "- Last updated:";
    assert j + "\n- Last updated:" + tail == j + "\n" + rest;
    SplitAt(Join("\n", h[..10]), rest, '\n');
    assert NoneContains(h[..10], '\n');
    SplitJoin(h[..10], '\n');
  }

  /**
   Read line by line, a profile whose fields are one-line texts shows `<br>`, a
   blank line, the heading `# ` + kernel link, a blank line, the avatar, a blank
   line and the bullets Author, Best score, Vote count and Comment count in
   that order; the rest is the Last updated bullet and the table, stripped.
   */
  lemma ProfileLines(kernelLink: string, table: string, meta: KernelMeta)
    requires '\n' !in kernelLink && MetaOneLine(meta)
    ensures Lines(MakeProfile(kernelLink, table, meta))
         == ProfileHead(kernelLink, meta)[..10]
            + Lines("- Last updated:" + RStrip(" " + meta.lastUpdated + "\n\n" + table))
  {
    HeadOneLine(kernelLink, meta);
    StrippedLines(ProfileHead(kernelLink, meta), meta.lastUpdated, table);
  }

  /** Stripping a template whose table ends visibly leaves head lines, a newline, then the table. */
  lemma {:induction false} StripKeepsTable(h: seq<string>, lastUpdated: string, table: string)
    requires |h| == 12 && h[10] == "- Last updated: " + lastUpdated && h[11] == ""
    requires |table| > 0 && !IsSpace(table[|table| - 1])
    ensures Join("\n", h[..10]) + "\n- Last updated:" + RStrip(" " + lastUpdated + "\n\n" + table)
         == Join("\n", h) + "\n" + table
    ensures EndsWith(Join("\n", h) + "\n" + table, "\n\n" + table)
  {
    var b := " " + lastUpdated + "\n\n" + table;
    assert b[|b| - 1] == table[|table| - 1];
    TemplateTail(h, lastUpdated, table);
    JoinAppend("\n", h, [table]);
    var x := Join("\n", h[..10]) + "\n- Last updated: " + lastUpdated;
    assert Join("\n", h) + "\n" + table == x + ("\n\n" + table);
  }

  /**
   A table ending in a visible character survives the strip intact: the
   profile is its twelve head lines, then the table, and ends with the table.
   */
  lemma ProfileEndsWithTable(kernelLink: string, table: string, meta: KernelMeta)
    requires |table| > 0 && !IsSpace(table[|table| - 1])
    ensures MakeProfile(kernelLink, table, meta) == Join("\n", ProfileHead(kernelLink, meta)) + "\n" + table
    ensures EndsWith(MakeProfile(kernelLink, table, meta), "\n\n" + table)
  {
    StripKeepsTable(ProfileHead(kernelLink, meta), meta.lastUpdated, table);
  }

  /** With one-line fields and a visibly ending table, the profile's lines are its head lines followed by the table's lines. */
  lemma ProfileLinesWithTable(kernelLink: string, table: string, meta: KernelMeta)
    requires '\n' !in kernelLink && MetaOneLine(meta)
    requires |table| > 0 && !IsSpace(table[|table| - 1])
    ensures Lines(MakeProfile(kernelLink, table, meta)) == ProfileHead(kernelLink, meta) + Lines(table)
  {
    ProfileEndsWithTable(kernelLink, table, meta);
    HeadOneLine(kernelLink, meta);
    SplitAt(Join("\n", ProfileHead(kernelLink, meta)), table, '\n');
    SplitJoin(ProfileHead(kernelLink, meta), '\n');
  }

  lemma TwoCellRow(a: string, b: string)
    ensures MakeRow([a, b]) == "|" + a + "|" + b + "|"
  {
    JoinTwoOrMore("|", a, [b]);
  }

  lemma ThreeLines(x: string, y: string, z: string)
    ensures Join("\n", [x, y, z]) == x + "\n" + y + "\n" + z
  {
    JoinTwoOrMore("\n", x, [y, z]);
    JoinTwoOrMore("\n", y, [z]);
  }

  /** The three-line table of one tuple under a two-column header. */
  lemma TwoColumnTable(a: string, b: string, x: string, y: string)
    ensures MakeTable([a, b], [[x, y]])
         == "|" + a + "|" + b + "|" + "\n" + "|-|-|" + "\n" + "|" + x + "|" + y + "|"
  {
    assert Dashes(2) == ["-", "-"];
    assert Rows([[x, y]]) == [MakeRow([x, y])];
    TwoCellRow(a, b);
    TwoCellRow("-", "-");
    TwoCellRow(x, y);
    assert "|" + "-" + "|" + "-" + "|" == "|-|-|";
    var top := "|" + a + "|" + b + "|";
    var bottom := "|" + x + "|" + y + "|";
    assert [MakeRow([a, b]), MakeRow(Dashes(2))] + Rows([[x, y]]) == [top, "|-|-|", bottom];
    ThreeLines(top, "|-|-|", bottom);
  }
}

=== FILE: report.dfy ===
/**
 The per-kernel loop and the final report of profile_kernels.py's `main`: each
 linked revision's page is scored and becomes a table row, each kernel becomes
 a profile, and the profiles are joined under a timestamp header.

 The page body of every revision URL is given by `pages` (the HTTP fetch is
 not modelled); the UTC timestamp is given as text.
 */
module Report {

  import opened Wrappers
  import opened Text
  import opened Markdown
  import opened Revisions
  import opened Score

  /** The column titles of every revision table. */
  const HEADER: seq<string> := ["Title", "Version", "Score", "Committed at", "Link"]

  /** One kernel of the listing: its title, absolute URL, card metadata and version table rows. */
  datatype Kernel = Kernel(title: string, url: string, meta: KernelMeta, versions: seq<VersionRow>)

  /** The table row of one revision: kernel title, version, score cell, commit time and an `Open` link. */
  function ScoreRow(title: string, rev: Revision, score: real, show: real -> string): (r: seq<string>)
    ensures |r| == |HEADER|
    ensures r[2] == ScoreCell(score, show) && (score == SENTINEL ==> r[2] == PLACEHOLDER)
    ensures r[4] == MakeLink("Open", rev.url)
  {
    [title, rev.version, ScoreCell(score, show), rev.committedAt, MakeLink("Open", rev.url)]
  }

  /** Scores one revision's page; a captured score `float()` rejects is an error. */
  function ScoreRevision(title: string, rev: Revision, pages: string -> string,
                         toFloat: string -> Option<real>, show: real -> string): Result<seq<string>, string>
  {
    match ParsePublicScore(pages(rev.url), toFloat)
    case Ok(score) => Ok(ScoreRow(title, rev, score, show))
    case Err(e) => Err(e)
  }

  /** Scores each revision in order; the first failure aborts the loop. */
  function ScoreRows(title: string, revs: seq<Revision>, pages: string -> string,
                     toFloat: string -> Option<real>, show: real -> string): Result<seq<seq<string>>, string>
  {
    MapAll(revs, rev => ScoreRevision(title, rev, pages, toFloat, show))
  }

  /** The revision table of one kernel, built from the linked rows of its version table. */
  function KernelTable(k: Kernel, pages: string -> string, toFloat: string -> Option<real>,
                       show: real -> string): Result<string, string>
  {
    match ScoreRows(k.title, VersionItems(k.versions), pages, toFloat, show)
    case Ok(rows) => Ok(MakeTable(HEADER, rows))
    case Err(e) => Err(e)
  }

  /** The profile block of one kernel. */
  function KernelProfile(k: Kernel, pages: string -> string, toFloat: string -> Option<real>,
                         show: real -> string): Result<string, string>
  {
    match KernelTable(k, pages, toFloat, show)
    case Ok(table) => Ok(MakeProfile(MakeLink(k.title, k.url), table, k.meta))
    case Err(e) => Err(e)
  }

  /** The profiles of all kernels, in listing order, or the first error. */
  function Profiles(kernels: seq<Kernel>, pages: string -> string, toFloat: string -> Option<real>,
                    show: real -> string): Result<seq<string>, string>
  {
    MapAll(kernels, k => KernelProfile(k, pages, toFloat, show))
  }

  /** The report header line. */
  function CreatedAt(timestamp: string): string {
    "### Created at " + timestamp
  }

  /** The report text: the header line and the profiles, joined by blank lines. */
  function AssembleReport(timestamp: string, profiles: seq<string>): string {
    Join("\n\n", [CreatedAt(timestamp)] + profiles)
  }

  /**
   The whole run: the report text, or the error that aborted it, in which
   case nothing is written.
   */
  function BuildReport(timestamp: string, kernels: seq<Kernel>, pages: string -> string,
                       toFloat: string -> Option<real>, show: real -> string): Result<string, string>
  {
    match Profiles(kernels, pages, toFloat, show)
    case Ok(profiles) => Ok(AssembleReport(timestamp, profiles))
    case Err(e) => Err(e)
  }

  // ---------------------------------------------------------------------------
  // Report layout

  /** The report is the header followed, for each profile in order, by one blank-line separator and the profile. */
  lemma ReportSeparators(timestamp: string, profiles: seq<string>)
    ensures AssembleReport(timestamp, profiles) == CreatedAt(timestamp) + Prefixed("\n\n", profiles)
  {
    JoinIsPrefixed("\n\n", CreatedAt(timestamp), profiles);
  }

  /** For each profile, a blank line then the profile's own lines. */
  function BlankThenLines(profiles: seq<string>): seq<string>
    decreases |profiles|
  {
    if |profiles| == 0 then [] else [""] + Lines(profiles[0]) + BlankThenLines(profiles[1..])
  }

  lemma {:induction false} PrefixedLines(h: string, profiles: seq<string>)
    ensures Lines(h + Prefixed("\n\n", profiles)) == Lines(h) + BlankThenLines(profiles)
    decreases |profiles|
  {
    if |profiles| == 0 {
      assert h + "" == h;
    } else {
      var p, more := profiles[0], Prefixed("\n\n", profiles[1..]);
      assert h + Prefixed("\n\n", profiles) == h + "\n\n" + (p + more);
      BlankLineBetween(h, p + more);
      PrefixedLines(p, profiles[1..]);
      assert BlankThenLines(profiles) == [""] + Lines(p) + BlankThenLines(profiles[1..]);
    }
  }

  /** Read line by line, the report is its header line, then a blank line before each profile's lines. */
  lemma ReportLines(timestamp: string, profiles: seq<string>)
    requires '\n' !in timestamp
    ensures Lines(AssembleReport(timestamp, profiles)) == [CreatedAt(timestamp)] + BlankThenLines(profiles)
  {
    ReportSeparators(timestamp, profiles);
    PrefixedLines(CreatedAt(timestamp), profiles);
    SplitWithout(CreatedAt(timestamp), '\n');
  }

  // ---------------------------------------------------------------------------
  // Headings

  /** A Markdown top-level heading line. */
  predicate IsHeading(line: string) {
    StartsWith(line, "# ")
  }

  /** The heading lines among `lines`, in order. */
  function Headings(lines: seq<string>): seq<string>
    decreases |lines|
  {
    if |lines| == 0 then []
    else (if IsHeading(lines[0]) then [lines[0]] else []) + Headings(lines[1..])
  }

  lemma {:induction false} HeadingsAppend(a: seq<string>, b: seq<string>)
    ensures Headings(a + b) == Headings(a) + Headings(b)
    decreases |a|
  {
    if |a| == 0 {
      assert a + b == b;
    } else {
      assert (a + b)[0] == a[0];
      assert (a + b)[1..] == a[1..] + b;
      HeadingsAppend(a[1..], b);
    }
  }

  lemma {:induction false} NoHeadings(lines: seq<string>)
    requires forall k :: 0 <= k < |lines| ==> !IsHeading(lines[k])
    ensures Headings(lines) == []
    decreases |lines|
  {
    if |lines| > 0 {
      NoHeadings(lines[1..]);
    }
  }

  /** Lines opening with `|` (table rows) are never headings. */
  lemma RowsAreNotHeadings(lines: seq<string>)
    requires forall k :: 0 <= k < |lines| ==> |lines[k]| > 0 && lines[k][0] == '|'
    ensures Headings(lines) == []
  {
    NoHeadings(lines);
  }

  /** A twelve-line head whose only heading is its third line. */
  lemma HeadHeadings(h: seq<string>)
    requires |h| == 12 && IsHeading(h[2])
    requires forall k :: 0 <= k < 12 && k != 2 ==> !IsHeading(h[k])
    ensures Headings(h) == [h[2]]
  {
    assert h == h[..2] + ([h[2]] + h[3..]);
    HeadingsAppend(h[..2], [h[2]] + h[3..]);
    HeadingsAppend([h[2]], h[3..]);
    NoHeadings(h[..2]);
    NoHeadings(h[3..]);
  }

  /** In a profile head the heading line is the only line starting with `# `. */
  lemma ProfileHeadHeadings(kernelLink: string, meta: KernelMeta)
    ensures Headings(ProfileHead(kernelLink, meta)) == ["# " + kernelLink]
  {
    var h := ProfileHead(kernelLink, meta);
    forall k | 0 <= k < 12 && k != 2
      ensures !IsHeading(h[k])
    {
      assert |h[k]| < 2 || h[k][0] != '#';
    }
    HeadHeadings(h);
  }

  // ---------------------------------------------------------------------------
  // One-line inputs

  /** The scraped texts of a kernel contain no newline, as displayed text on a card does. */
  predicate KernelOneLine(k: Kernel) {
    && '\n' !in k.title && '\n' !in k.url && MetaOneLine(k.meta)
    && forall i :: 0 <= i < |k.versions| ==> RowOneLine(k.versions[i])
  }

  predicate RowOneLine(row: VersionRow) {
    '\n' !in row.version && '\n' !in row.committedAt && (row.href.Some? ==> '\n' !in row.href.value)
  }

  /** No rendered score contains a newline. */
  ghost predicate ShowOneLine(show: real -> string) {
    forall x :: '\n' !in show(x)
  }

  lemma RevisionsOneLine(k: Kernel)
    requires KernelOneLine(k)
    ensures forall r :: r in VersionItems(k.versions) ==>
              '\n' !in r.version && '\n' !in r.committedAt && '\n' !in r.url
  {
    VersionItemsAreSurvivors(k.versions);
    forall r | r in VersionItems(k.versions)
      ensures '\n' !in r.version && '\n' !in r.committedAt && '\n' !in r.url
    {
      SurvivorMembership(k.versions, r);
      var i :| 0 <= i < |k.versions| && Linked(k.versions[i]) && r == Describe(k.versions[i]);
      assert RowOneLine(k.versions[i]);
    }
  }

  lemma ScoreRowsOneLine(k: Kernel, pages: string -> string, toFloat: string -> Option<real>, show: real -> string)
    requires KernelOneLine(k) && ShowOneLine(show)
    requires ScoreRows(k.title, VersionItems(k.versions), pages, toFloat, show).Ok?
    ensures CellsOneLine(ScoreRows(k.title, VersionItems(k.versions), pages, toFloat, show).value)
  {
    var revs := VersionItems(k.versions);
    var rows := ScoreRows(k.title, revs, pages, toFloat, show).value;
    RevisionsOneLine(k);
    forall j | 0 <= j < |rows|
      ensures NoneContains(rows[j], '\n')
    {
      assert revs[j] in revs;
    }
  }

  // ---------------------------------------------------------------------------
  // Tables and profiles of the pipeline

  /** Five cells joined by bars, written out. */
  lemma {:induction false} JoinFive(xs: seq<string>)
    requires |xs| == 5
    ensures Join("|", xs) == xs[0] + "|" + xs[1] + "|" + xs[2] + "|" + xs[3] + "|" + xs[4]
  {
    JoinTwoOrMore("|", xs[3], xs[4..]);
    assert xs[3..] == [xs[3]] + xs[4..];
    JoinTwoOrMore("|", xs[2], xs[3..]);
    assert xs[2..] == [xs[2]] + xs[3..];
    JoinTwoOrMore("|", xs[1], xs[2..]);
    assert xs[1..] == [xs[1]] + xs[2..];
    JoinTwoOrMore("|", xs[0], xs[1..]);
    assert xs == [xs[0]] + xs[1..];
  }

  /** The header row of every revision table: the five column titles between bars. */
  lemma HeaderRow()
    ensures MakeRow(HEADER) == "|" + "Title" + "|" + "Version" + "|" + "Score" + "|" + "Committed at" + "|" + "Link" + "|"
  {
    JoinFive(HEADER);
  }

  /** The separator row of every revision table. */
  lemma DashRow()
    ensures MakeRow(Dashes(|HEADER|)) == "|-|-|-|-|-|"
  {
    var d := Dashes(5);
    assert d == ["-", "-", "-", "-", "-"];
    JoinFive(d);
    var j := Join("|", d);
    assert j == "-|-|-|-|-";
  }

  /** The lines of a revision table whose cells are one-line texts. */
  lemma RevisionTableLines(rows: seq<seq<string>>)
    requires CellsOneLine(rows)
    ensures Lines(MakeTable(HEADER, rows))
         == [MakeRow(HEADER), "|-|-|-|-|-|"] + Rows(rows)
  {
    TableLines(HEADER, rows);
    DashRow();
  }

  /** Every linked revision of `k` has a page whose captured score `float()` accepts. */
  predicate KernelScored(k: Kernel, pages: string -> string, toFloat: string -> Option<real>) {
    forall r :: r in VersionItems(k.versions) ==> ParsePublicScore(pages(r.url), toFloat).Ok?
  }

  /** A kernel's table, and so its profile, is built exactly when all its linked revisions are scored. */
  lemma KernelOkIff(k: Kernel, pages: string -> string, toFloat: string -> Option<real>, show: real -> string)
    ensures KernelTable(k, pages, toFloat, show).Ok? <==> KernelScored(k, pages, toFloat)
    ensures KernelProfile(k, pages, toFloat, show).Ok? <==> KernelScored(k, pages, toFloat)
  {
    var revs := VersionItems(k.versions);
    if KernelScored(k, pages, toFloat) {
      assert forall j :: 0 <= j < |revs| ==> revs[j] in revs;
    }
  }

  /**
   A kernel's table has the header row, the separator row and then one row
   per linked version, in table order, carrying that version's score. With
   Revisions.VersionItemsSummary: N linked and M unlinked versions give N + 2
   lines.
   */
  lemma KernelTableShape(k: Kernel, pages: string -> string, toFloat: string -> Option<real>, show: real -> string)
    requires KernelOneLine(k) && ShowOneLine(show) && KernelScored(k, pages, toFloat)
    ensures KernelTable(k, pages, toFloat, show).Ok?
    ensures |Lines(KernelTable(k, pages, toFloat, show).value)| == |VersionItems(k.versions)| + 2
    ensures Lines(KernelTable(k, pages, toFloat, show).value)[..2] == [MakeRow(HEADER), "|-|-|-|-|-|"]
    ensures forall j :: 0 <= j < |VersionItems(k.versions)| ==>
              Lines(KernelTable(k, pages, toFloat, show).value)[j + 2]
              == MakeRow(ScoreRow(k.title, VersionItems(k.versions)[j],
                                  ParsePublicScore(pages(VersionItems(k.versions)[j].url), toFloat).value, show))
  {
    KernelOkIff(k, pages, toFloat, show);
    var revs := VersionItems(k.versions);
    var rows := ScoreRows(k.title, revs, pages, toFloat, show).value;
    ScoreRowsOneLine(k, pages, toFloat, show);
    ScoredTableLines(k.title, revs, rows, pages, toFloat, show);
    assert KernelTable(k, pages, toFloat, show).value == MakeTable(HEADER, rows);
  }

  /** The lines of the table of scored rows, one per revision, in order. */
  lemma ScoredTableLines(title: string, revs: seq<Revision>, rows: seq<seq<string>>, pages: string -> string,
                         toFloat: string -> Option<real>, show: real -> string)
    requires ScoreRows(title, revs, pages, toFloat, show) == Ok(rows)
    requires CellsOneLine(rows)
    ensures forall j :: 0 <= j < |revs| ==> ParsePublicScore(pages(revs[j].url), toFloat).Ok?
    ensures |Lines(MakeTable(HEADER, rows))| == |revs| + 2
    ensures Lines(MakeTable(HEADER, rows))[..2] == [MakeRow(HEADER), "|-|-|-|-|-|"]
    ensures forall j :: 0 <= j < |revs| ==>
              Lines(MakeTable(HEADER, rows))[j + 2]
              == MakeRow(ScoreRow(title, revs[j], ParsePublicScore(pages(revs[j].url), toFloat).value, show))
  {
    RevisionTableLines(rows);
    var lines := Lines(MakeTable(HEADER, rows));
    assert |rows| == |revs|;
    assert lines[..2] == [MakeRow(HEADER), "|-|-|-|-|-|"];
    forall j | 0 <= j < |revs|
      ensures ParsePublicScore(pages(revs[j].url), toFloat).Ok?
      ensures lines[j + 2] == MakeRow(ScoreRow(title, revs[j], ParsePublicScore(pages(revs[j].url), toFloat).value, show))
    {
      assert ScoreRevision(title, revs[j], pages, toFloat, show).Ok?;
      assert lines[j + 2] == Rows(rows)[j];
    }
  }

  /** Every line of a revision table with one-line cells opens with `|`. */
  lemma TableLinesOpenWithBar(rows: seq<seq<string>>)
    requires CellsOneLine(rows)
    ensures forall j :: 0 <= j < |Lines(MakeTable(HEADER, rows))| ==>
              |Lines(MakeTable(HEADER, rows))[j]| > 0 && Lines(MakeTable(HEADER, rows))[j][0] == '|'
  {
    TableLines(HEADER, rows);
    var lines := Lines(MakeTable(HEADER, rows));
    forall j | 0 <= j < |lines|
      ensures |lines[j]| > 0 && lines[j][0] == '|'
    {
      if j == 0 {
        assert lines[j] == MakeRow(HEADER);
      } else if j == 1 {
        assert lines[j] == MakeRow(Dashes(|HEADER|));
      } else {
        assert lines[j] == MakeRow(rows[j - 2]);
      }
    }
  }

  /** A profile around a table of `|` rows has exactly one heading line: `# ` + the kernel link. */
  lemma ProfileHeadings(kernelLink: string, table: string, meta: KernelMeta)
    requires '\n' !in kernelLink && MetaOneLine(meta)
    requires |table| > 0 && !IsSpace(table[|table| - 1])
    requires forall j :: 0 <= j < |Lines(table)| ==> |Lines(table)[j]| > 0 && Lines(table)[j][0] == '|'
    ensures Headings(Lines(MakeProfile(kernelLink, table, meta))) == ["# " + kernelLink]
  {
    ProfileLinesWithTable(kernelLink, table, meta);
    RowsAreNotHeadings(Lines(table));
    HeadingsAppend(ProfileHead(kernelLink, meta), Lines(table));
    ProfileHeadHeadings(kernelLink, meta);
  }

  /** The profile around a revision table has exactly one heading line. */
  lemma TableProfileHeadings(kernelLink: string, rows: seq<seq<string>>, meta: KernelMeta)
    requires '\n' !in kernelLink && MetaOneLine(meta) && CellsOneLine(rows)
    ensures Headings(Lines(MakeProfile(kernelLink, MakeTable(HEADER, rows), meta))) == ["# " + kernelLink]
  {
    var table := MakeTable(HEADER, rows);
    TableLinesOpenWithBar(rows);
    assert table[|table| - 1] == '|';
    ProfileHeadings(kernelLink, table, meta);
  }

  /** A kernel's profile, unfolded: the profile of its link around the table of its scored rows. */
  lemma KernelProfileUnfolded(k: Kernel, pages: string -> string, toFloat: string -> Option<real>, show: real -> string)
    requires KernelProfile(k, pages, toFloat, show).Ok?
    ensures ScoreRows(k.title, VersionItems(k.versions), pages, toFloat, show).Ok?
    ensures KernelProfile(k, pages, toFloat, show).value
         == MakeProfile(MakeLink(k.title, k.url),
                        MakeTable(HEADER, ScoreRows(k.title, VersionItems(k.versions), pages, toFloat, show).value),
                        k.meta)
  {
  }

  /** The profile of a kernel has exactly one heading line: `# ` + the kernel's link. */
  lemma KernelProfileHeadings(k: Kernel, pages: string -> string, toFloat: string -> Option<real>, show: real -> string)
    requires KernelOneLine(k) && ShowOneLine(show) && KernelScored(k, pages, toFloat)
    ensures KernelProfile(k, pages, toFloat, show).Ok?
    ensures Headings(Lines(KernelProfile(k, pages, toFloat, show).value)) == ["# " + MakeLink(k.title, k.url)]
  {
    KernelOkIff(k, pages, toFloat, show);
    KernelProfileUnfolded(k, pages, toFloat, show);
    ScoreRowsOneLine(k, pages, toFloat, show);
    LinkIsOneLine(k.title, k.url);
    TableProfileHeadings(MakeLink(k.title, k.url),
                         ScoreRows(k.title, VersionItems(k.versions), pages, toFloat, show).value, k.meta);
  }

  /** The `###` header line is not a top-level heading. */
  lemma CreatedAtIsNotHeading(timestamp: string)
    ensures !IsHeading(CreatedAt(timestamp))
  {
    assert CreatedAt(timestamp)[1] == '#';
  }

  lemma {:induction false} BlankThenLinesHeadings(profiles: seq<string>, headings: seq<string>)
    requires |profiles| == |headings|
    requires forall i :: 0 <= i < |profiles| ==> Headings(Lines(profiles[i])) == [headings[i]]
    ensures Headings(BlankThenLines(profiles)) == headings
    decreases |profiles|
  {
    if |profiles| > 0 {
      BlankThenLinesHeadings(profiles[1..], headings[1..]);
      HeadingsAppend([""] + Lines(profiles[0]), BlankThenLines(profiles[1..]));
      HeadingsAppend([""], Lines(profiles[0]));
      assert headings == [headings[0]] + headings[1..];
    }
  }

  /**
   Reading a written report back line by line finds one `# ` heading per
   kernel, in listing order, each the kernel's linked title.
   */
  lemma ReportHeadings(timestamp: string, kernels: seq<Kernel>, pages: string -> string,
                       toFloat: string -> Option<real>, show: real -> string)
    requires '\n' !in timestamp && ShowOneLine(show)
    requires forall i :: 0 <= i < |kernels| ==> KernelOneLine(kernels[i]) && KernelScored(kernels[i], pages, toFloat)
    ensures BuildReport(timestamp, kernels, pages, toFloat, show).Ok?
    ensures Headings(Lines(BuildReport(timestamp, kernels, pages, toFloat, show).value))
         == seq(|kernels|, i requires 0 <= i < |kernels| => "# " + MakeLink(kernels[i].title, kernels[i].url))
  {
    forall i | 0 <= i < |kernels| {
      KernelOkIff(kernels[i], pages, toFloat, show);
    }
    var profiles := Profiles(kernels, pages, toFloat, show).value;
    var headings := seq(|kernels|, i requires 0 <= i < |kernels| => "# " + MakeLink(kernels[i].title, kernels[i].url));
    forall i | 0 <= i < |profiles|
      ensures Headings(Lines(profiles[i])) == [headings[i]]
    {
      KernelProfileHeadings(kernels[i], pages, toFloat, show);
    }
    ReportLines(timestamp, profiles);
    BlankThenLinesHeadings(profiles, headings);
    HeadingsAppend([CreatedAt(timestamp)], BlankThenLines(profiles));
    CreatedAtIsNotHeading(timestamp);
  }

  /**
   A report is produced exactly when every linked revision of every kernel
   yields a score.
   */
  lemma ReportWrittenIff(timestamp: string, kernels: seq<Kernel>, pages: string -> string,
                         toFloat: string -> Option<real>, show: real -> string)
    ensures BuildReport(timestamp, kernels, pages, toFloat, show).Ok?
        <==> forall i, r :: 0 <= i < |kernels| && r in VersionItems(kernels[i].versions) ==>
               ParsePublicScore(pages(r.url), toFloat).Ok?
  {
    forall i | 0 <= i < |kernels| {
      KernelOkIff(kernels[i], pages, toFloat, show);
    }
  }

  /** A kernel whose profile fails failed on the captured score text of one of its linked revisions. */
  lemma KernelErrorIsRejectedScore(k: Kernel, pages: string -> string, toFloat: string -> Option<real>,
                                   show: real -> string, e: string)
    ensures KernelProfile(k, pages, toFloat, show) == Err(e) ==>
              exists r :: r in VersionItems(k.versions) && CapturePublicScore(pages(r.url)) == Some(e) && toFloat(e).None?
  {
    if KernelProfile(k, pages, toFloat, show) == Err(e) {
      var revs := VersionItems(k.versions);
      assert ScoreRows(k.title, revs, pages, toFloat, show) == Err(e);
      var j :| 0 <= j < |revs| && ScoreRevision(k.title, revs[j], pages, toFloat, show) == Err(e);
      assert ParsePublicScore(pages(revs[j].url), toFloat) == Err(e);
      assert revs[j] in revs;
    }
  }

  /**
   When no report is written, the error is the captured score text of some
   linked revision of some kernel, which `float()` rejects.
   */
  lemma ReportErrorIsRejectedScore(timestamp: string, kernels: seq<Kernel>, pages: string -> string,
                                   toFloat: string -> Option<real>, show: real -> string)
    ensures BuildReport(timestamp, kernels, pages, toFloat, show).Err? ==>
              exists i, r :: 0 <= i < |kernels| && r in VersionItems(kernels[i].versions)
                && CapturePublicScore(pages(r.url)) == Some(BuildReport(timestamp, kernels, pages, toFloat, show).error)
                && toFloat(BuildReport(timestamp, kernels, pages, toFloat, show).error).None?
  {
    if BuildReport(timestamp, kernels, pages, toFloat, show).Err? {
      var e := BuildReport(timestamp, kernels, pages, toFloat, show).error;
      assert Profiles(kernels, pages, toFloat, show) == Err(e);
      var i :| 0 <= i < |kernels| && KernelProfile(kernels[i], pages, toFloat, show) == Err(e);
      KernelErrorIsRejectedScore(kernels[i], pages, toFloat, show, e);
    }
  }
}

=== FILE: revisions.dfy ===
/**
 The revision-history fold of profile_kernels.py (`process_version_item` folded
 with `reduce`). Each row of the version table is given already extracted: its
 version label, its commit-time text and the `href` of its version link, which
 may be absent.
 */
module Revisions {

  import opened Wrappers

  /** The site root every relative link is resolved against. */
  const TOP_URL: string := "https://www.kaggle.com"

  /** One row of the version table as the page shows it. */
  datatype VersionRow = VersionRow(version: string, committedAt: string, href: Option<string>)

  /** A revision that can be opened: label, commit-time text and absolute URL. */
  datatype Revision = Revision(version: string, committedAt: string, url: string)

  predicate Linked(row: VersionRow) {
    row.href.Some?
  }

  /** The revision a linked row stands for. */
  function Describe(row: VersionRow): Revision
    requires Linked(row)
  {
    Revision(row.version, row.committedAt, TOP_URL + row.href.value)
  }

  /** One step of the fold: a row without a link leaves the accumulator alone, a linked one is appended. */
  function ProcessVersionItem(acc: seq<Revision>, item: VersionRow): seq<Revision> {
    if item.href.None? then acc
    else acc + [Revision(item.version, item.committedAt, TOP_URL + item.href.value)]
  }

  /** Python's `reduce(process_version_item, items, acc)`: a left fold. */
  function Reduce(acc: seq<Revision>, items: seq<VersionRow>): seq<Revision>
    decreases |items|
  {
    if |items| == 0 then acc else Reduce(ProcessVersionItem(acc, items[0]), items[1..])
  }

  /** The revisions of a version table, as the scraper collects them. */
  function VersionItems(items: seq<VersionRow>): seq<Revision> {
    Reduce([], items)
  }

  /** Reference definition: the linked rows, described, in table order. */
  function Survivors(items: seq<VersionRow>): seq<Revision>
    decreases |items|
  {
    if |items| == 0 then []
    else (if Linked(items[0]) then [Describe(items[0])] else []) + Survivors(items[1..])
  }

  /** How many rows carry a link. */
  function CountLinked(items: seq<VersionRow>): (n: nat)
    ensures n <= |items|
    decreases |items|
  {
    if |items| == 0 then 0 else (if Linked(items[0]) then 1 else 0) + CountLinked(items[1..])
  }

  /** The fold appends to its seed exactly the linked rows, described, in order. */
  lemma {:induction false} ReduceIsFilter(acc: seq<Revision>, items: seq<VersionRow>)
    ensures Reduce(acc, items) == acc + Survivors(items)
    decreases |items|
  {
    if |items| > 0 {
      ReduceIsFilter(ProcessVersionItem(acc, items[0]), items[1..]);
    }
  }

  /** The scraper's fold and the reference filter agree on every table. */
  lemma VersionItemsAreSurvivors(items: seq<VersionRow>)
    ensures VersionItems(items) == Survivors(items)
  {
    ReduceIsFilter([], items);
  }

  /** Keeping survivors commutes with splitting the table: order is preserved across any cut. */
  lemma {:induction false} SurvivorsAppend(a: seq<VersionRow>, b: seq<VersionRow>)
    ensures Survivors(a + b) == Survivors(a) + Survivors(b)
    decreases |a|
  {
    if |a| == 0 {
      assert a + b == b;
    } else {
      assert (a + b)[0] == a[0];
      assert (a + b)[1..] == a[1..] + b;
      SurvivorsAppend(a[1..], b);
    }
  }

  /** N linked rows and M unlinked rows give exactly N revisions. */
  lemma {:induction false} SurvivorCount(items: seq<VersionRow>)
    ensures |Survivors(items)| == CountLinked(items)
    decreases |items|
  {
    if |items| > 0 {
      SurvivorCount(items[1..]);
    }
  }

  /** A revision survives exactly when some linked row describes it. */
  lemma {:induction false} SurvivorMembership(items: seq<VersionRow>, r: Revision)
    ensures r in Survivors(items) <==> exists i :: 0 <= i < |items| && Linked(items[i]) && r == Describe(items[i])
    decreases |items|
  {
    if |items| > 0 {
      SurvivorMembership(items[1..], r);
      if r in Survivors(items[1..]) {
        var i :| 0 <= i < |items[1..]| && Linked(items[1..][i]) && r == Describe(items[1..][i]);
        assert items[i + 1] == items[1..][i];
      }
      if exists i :: 0 <= i < |items| && Linked(items[i]) && r == Describe(items[i]) {
        var i :| 0 <= i < |items| && Linked(items[i]) && r == Describe(items[i]);
        if i > 0 {
          assert items[1..][i - 1] == items[i];
        }
      }
    }
  }

  /** The scraper's fold over a table, summarised: count, membership and order. */
  lemma VersionItemsSummary(items: seq<VersionRow>, a: seq<VersionRow>, b: seq<VersionRow>)
    requires items == a + b
    ensures |VersionItems(items)| == CountLinked(items)
    ensures VersionItems(items) == VersionItems(a) + VersionItems(b)
    ensures forall r :: r in VersionItems(items) <==>
              exists i :: 0 <= i < |items| && Linked(items[i]) && r == Describe(items[i])
  {
    VersionItemsAreSurvivors(items);
    VersionItemsAreSurvivors(a);
    VersionItemsAreSurvivors(b);
    SurvivorCount(items);
    SurvivorsAppend(a, b);
    forall r {
      SurvivorMembership(items, r);
    }
  }

  /**
   The same fold written as a loop over the table, as `reduce` runs it: after
   each row the accumulator holds the survivors of the rows seen so far.
   */
  method CollectRevisions(items: seq<VersionRow>) returns (acc: seq<Revision>)
    ensures acc == Survivors(items)
    ensures |acc| == CountLinked(items)
  {
    acc := [];
    var i := 0;
    while i < |items|
      invariant 0 <= i <= |items|
      invariant acc == Survivors(items[..i])
    {
      SurvivorsAppend(items[..i], [items[i]]);
      assert items[..i + 1] == items[..i] + [items[i]];
      acc := ProcessVersionItem(acc, items[i]);
      i := i + 1;
    }
    assert items[..i] == items;
    SurvivorCount(items);
  }
}

=== FILE: score.dfy ===
/**
 The public-score lookup of profile_kernels.py: `parse_public_score` searches a
 revision page for `"publicScore":"(.+?)"`, and the score cell of a table row
 shows `-` in place of a zero score.

 Python's `float()` and `str()` on floats are taken as parameters: `toFloat`
 returns None where `float()` would raise, and `show` renders a score.
 */
module Score {

  import opened Wrappers
  import opened Text

  /** The literal text in front of the captured group: `"publicScore":"`. */
  const KEY: string := "\"publicScore\":\""

  /** The score a page without a public score is given. */
  const SENTINEL: real := 0.0

  /** The text a row shows in place of a sentinel score. */
  const PLACEHOLDER: string := "-"

  /**
   Declarative reading of `"publicScore":"(.+?)"` matching at position `i`
   with group `t`: the key, then at least one character other than a newline
   (`.` never matches one), then the first `"` after the group's first
   character (`+?` is lazy).
   */
  predicate MatchesAt(s: string, i: nat, t: string) {
    && |t| >= 1 && '\n' !in t && '"' !in t[1..]
    && i + |KEY| + |t| + 1 <= |s|
    && s[i..i + |KEY| + |t| + 1] == KEY + t + "\""
  }

  /** The match Python's `re.search` reports: the one at the smallest position. */
  ghost predicate IsFirstMatch(s: string, i: nat, t: string) {
    MatchesAt(s, i, t) && forall j: nat, u :: j < i ==> !MatchesAt(s, j, u)
  }

  /** `p` occurs somewhere in `s`. */
  predicate Occurs(s: string, p: string) {
    exists i: nat :: i <= |s| && OccursAt(s, p, i)
  }

  /** `p` occurs in `s` at position `i`. */
  predicate OccursAt(s: string, p: string, i: nat) {
    i + |p| <= |s| && s[i..i + |p|] == p
  }

  /** The lazy scan for the closing quote, from position `j` on; a newline ends the scan unsuccessfully. */
  function CloseQuote(s: string, j: nat): (r: Option<nat>)
    requires j <= |s|
    ensures r.Some? ==> (j <= r.value < |s| && s[r.value] == '"'
                         && forall m :: j <= m < r.value ==> s[m] != '"' && s[m] != '\n')
    ensures r.None? ==> forall m :: j <= m < |s| && s[m] == '"' ==> exists n :: j <= n < m && s[n] == '\n'
    decreases |s| - j
  {
    if j == |s| then None
    else if s[j] == '"' then Some(j)
    else if s[j] == '\n' then None
    else CloseQuote(s, j + 1)
  }

  /** The regex tried at one position. */
  function MatchAt(s: string, i: nat): Option<string> {
    var k := i + |KEY|;
    if k < |s| && s[i..k] == KEY && s[k] != '\n' then
      match CloseQuote(s, k + 1)
      case Some(j) => Some(s[k..j])
      case None => None
    else None
  }

  /** `re.search`: try every position from `i` on, in order, the end of the text included. */
  function SearchFrom(s: string, i: nat): Option<string>
    decreases |s| + 1 - i
  {
    if i > |s| then None
    else match MatchAt(s, i)
      case Some(t) => Some(t)
      case None => SearchFrom(s, i + 1)
  }

  /** The captured score text of a page, if the pattern is present. */
  function CapturePublicScore(html: string): Option<string> {
    SearchFrom(html, 0)
  }

  /** The scanner at one position agrees with the declarative reading, both ways. */
  lemma MatchAtSound(s: string, i: nat)
    ensures MatchAt(s, i).Some? ==> MatchesAt(s, i, MatchAt(s, i).value)
  {
    var k := i + |KEY|;
    if MatchAt(s, i).Some? {
      var j := CloseQuote(s, k + 1).value;
      var t := s[k..j];
      assert t[1..] == s[k + 1..j];
      assert s[i..j + 1] == s[i..k] + t + [s[j]];
    }
  }

  /** The pieces of a match, read off the text. */
  lemma MatchParts(s: string, i: nat, t: string)
    requires MatchesAt(s, i, t)
    ensures s[i..i + |KEY|] == KEY
    ensures s[i + |KEY|..i + |KEY| + |t|] == t
    ensures s[i + |KEY| + |t|] == '"'
  {
    var k := i + |KEY|;
    var j := k + |t|;
    var w := s[i..j + 1];
    assert w == KEY + t + "\"";
    assert s[i..k] == w[..|KEY|];
    forall m | 0 <= m < |t|
      ensures s[k..j][m] == t[m]
    {
      assert s[k + m] == w[|KEY| + m];
    }
    assert s[j] == w[|KEY| + |t|];
  }

  /** The scan stops at the first quote when no newline or quote comes before it. */
  lemma {:induction false} CloseQuoteFinds(s: string, from: nat, j: nat)
    requires from <= j < |s| && s[j] == '"'
    requires forall m :: from <= m < j ==> s[m] != '"' && s[m] != '\n'
    ensures CloseQuote(s, from) == Some(j)
    decreases j - from
  {
    if from < j {
      CloseQuoteFinds(s, from + 1, j);
    }
  }

  lemma MatchAtComplete(s: string, i: nat, t: string)
    requires MatchesAt(s, i, t)
    ensures MatchAt(s, i) == Some(t)
  {
    var k := i + |KEY|;
    var j := k + |t|;
    MatchParts(s, i, t);
    assert s[k] == t[0];
    forall m | k + 1 <= m < j
      ensures s[m] != '"' && s[m] != '\n'
    {
      assert s[m] == t[m - k];
      assert t[m - k] in t[1..];
    }
    CloseQuoteFinds(s, k + 1, j);
  }

  /** At most one group matches at a position. */
  lemma MatchesAtUnique(s: string, i: nat, t: string, u: string)
    requires MatchesAt(s, i, t) && MatchesAt(s, i, u)
    ensures t == u
  {
    MatchAtComplete(s, i, t);
    MatchAtComplete(s, i, u);
  }

  lemma {:induction false} SearchFromSound(s: string, i: nat)
    ensures SearchFrom(s, i).None? ==> forall j: nat, u :: i <= j ==> !MatchesAt(s, j, u)
    ensures SearchFrom(s, i).Some? ==>
              exists j: nat :: i <= j && MatchesAt(s, j, SearchFrom(s, i).value)
                               && forall j': nat, u :: i <= j' < j ==> !MatchesAt(s, j', u)
    decreases |s| + 1 - i
  {
    if i <= |s| {
      MatchAtSound(s, i);
      forall u | MatchesAt(s, i, u)
        ensures MatchAt(s, i).Some?
      {
        MatchAtComplete(s, i, u);
      }
      if MatchAt(s, i).None? {
        SearchFromSound(s, i + 1);
        if SearchFrom(s, i).Some? {
          var j: nat :| i + 1 <= j && MatchesAt(s, j, SearchFrom(s, i).value)
                        && forall j': nat, u :: i + 1 <= j' < j ==> !MatchesAt(s, j', u);
          assert forall j': nat, u :: i <= j' < j ==> !MatchesAt(s, j', u);
        }
      }
    }
  }

  /**
   The capture is exactly the group of the first match: present iff the
   pattern matches somewhere, and then the group at the smallest matching
   position.
   */
  lemma CaptureIsFirstMatch(html: string, t: string)
    ensures CapturePublicScore(html) == Some(t) <==> exists i: nat :: IsFirstMatch(html, i, t)
    ensures CapturePublicScore(html).None? <==> forall i: nat, u :: !MatchesAt(html, i, u)
  {
    SearchFromSound(html, 0);
    if CapturePublicScore(html) == Some(t) {
      var j: nat :| MatchesAt(html, j, t) && forall j': nat, u :: 0 <= j' < j ==> !MatchesAt(html, j', u);
      assert IsFirstMatch(html, j, t);
    }
    if exists i: nat :: IsFirstMatch(html, i, t) {
      var i: nat :| IsFirstMatch(html, i, t);
      var c := CapturePublicScore(html);
      assert c.Some?;
      var j: nat :| MatchesAt(html, j, c.value) && forall j': nat, u :: j' < j ==> !MatchesAt(html, j', u);
      if j < i {
        assert false;
      } else if i < j {
        assert false;
      }
      MatchesAtUnique(html, i, t, c.value);
    }
  }

  /** A match starts with an occurrence of the key. */
  lemma MatchHasKey(s: string, i: nat, t: string)
    requires MatchesAt(s, i, t)
    ensures Occurs(s, KEY)
  {
    assert s[i..i + |KEY|] == (s[i..i + |KEY| + |t| + 1])[..|KEY|];
    assert OccursAt(s, KEY, i);
  }

  /** A page without the literal `"publicScore":"` has no captured score. */
  lemma NoKeyNoCapture(html: string)
    requires !Occurs(html, KEY)
    ensures CapturePublicScore(html) == None
  {
    forall i: nat, u | MatchesAt(html, i, u)
      ensures false
    {
      MatchHasKey(html, i, u);
    }
    CaptureIsFirstMatch(html, "");
  }

  /**
   An empty value, `"publicScore":""`, is not read as "no score": the lazy
   group takes the value's closing quote and runs on to the next quote, so a
   following `,"` makes the capture `",`.
   */
  lemma EmptyValueCapture(rest: string)
    ensures CapturePublicScore(KEY + "\",\"" + rest) == Some("\",")
  {
    var html := KEY + "\",\"" + rest;
    var t := "\",";
    assert html[..|KEY| + |t| + 1] == KEY + t + "\"";
    assert MatchesAt(html, 0, t);
    assert IsFirstMatch(html, 0, t);
    CaptureIsFirstMatch(html, t);
  }

  /**
   `parse_public_score`: the captured text converted by `float()`, or the
   sentinel 0 when nothing is captured; a capture `float()` rejects is an
   error that aborts the run.
   */
  function ParsePublicScore(html: string, toFloat: string -> Option<real>): (r: Result<real, string>)
    ensures CapturePublicScore(html).None? ==> r == Ok(SENTINEL)
    ensures r.Ok? <==> CapturePublicScore(html).None? || toFloat(CapturePublicScore(html).value).Some?
    ensures r.Err? ==> CapturePublicScore(html) == Some(r.error) && toFloat(r.error).None?
    ensures r.Ok? && CapturePublicScore(html).Some? ==> toFloat(CapturePublicScore(html).value) == Some(r.value)
  {
    match CapturePublicScore(html)
    case None => Ok(SENTINEL)
    case Some(t) =>
      match toFloat(t)
      case Some(v) => Ok(v)
      case None => Err(t)
  }

  /** The score of a page is `float()` of the group of the leftmost match, when `float()` accepts it. */
  lemma ScoreIsFirstGroup(html: string, i: nat, t: string, toFloat: string -> Option<real>)
    requires IsFirstMatch(html, i, t) && toFloat(t).Some?
    ensures ParsePublicScore(html, toFloat) == Ok(toFloat(t).value)
  {
    CaptureIsFirstMatch(html, t);
  }

  /** A page without `"publicScore":"` scores the sentinel 0, whatever the conversion. */
  lemma SentinelWhenKeyAbsent(html: string, toFloat: string -> Option<real>)
    requires !Occurs(html, KEY)
    ensures ParsePublicScore(html, toFloat) == Ok(SENTINEL)
  {
    NoKeyNoCapture(html);
  }

  /** The Score cell of a table row: the rendered score, or `-` for a zero score. */
  function ScoreCell(score: real, show: real -> string): string {
    if score != SENTINEL then show(score) else PLACEHOLDER
  }

  /**
   As long as no rendered number reads `-` (Python's `str` of a float never
   does), the cell is `-` exactly when the score equals the sentinel.
   */
  lemma PlaceholderIffSentinel(score: real, show: real -> string)
    requires forall x :: show(x) != PLACEHOLDER
    ensures ScoreCell(score, show) == PLACEHOLDER <==> score == SENTINEL
  {
  }

  /**
   A page whose genuine public score is 0 renders the same cell as a page
   without any score: the table cannot tell them apart.
   */
  lemma GenuineZeroLooksAbsent(withZero: string, withoutKey: string,
                               toFloat: string -> Option<real>, show: real -> string)
    requires CapturePublicScore(withZero).Some?
    requires toFloat(CapturePublicScore(withZero).value) == Some(0.0)
    requires !Occurs(withoutKey, KEY)
    ensures ParsePublicScore(withZero, toFloat).Ok? && ParsePublicScore(withoutKey, toFloat).Ok?
    ensures ScoreCell(ParsePublicScore(withZero, toFloat).value, show)
         == ScoreCell(ParsePublicScore(withoutKey, toFloat).value, show)
         == PLACEHOLDER
  {
    SentinelWhenKeyAbsent(withoutKey, toFloat);
  }
}

=== FILE: text.dfy ===
/**
 Python string primitives the report builder relies on, over `seq<char>`:
 `sep.join(xs)`, `s.split(c)` for a one-character separator, and `str.strip()`.
 */
module Text {

  import opened Wrappers

  /** `s` begins with `p`. */
  predicate StartsWith(s: string, p: string) {
    |p| <= |s| && s[..|p|] == p
  }

  /** `s` ends with `p`. */
  predicate EndsWith(s: string, p: string) {
    |p| <= |s| && s[|s| - |p|..] == p
  }

  /** No piece of `xs` contains the character `c`. */
  predicate NoneContains(xs: seq<string>, c: char) {
    forall k :: 0 <= k < |xs| ==> c !in xs[k]
  }

  /** The characters Python's `str.isspace()` accepts, hence the ones `str.strip()` removes. */
  predicate IsSpace(c: char) {
    || ('\U{9}' <= c <= '\U{D}')
    || ('\U{1C}' <= c <= '\U{20}')
    || c == '\U{85}' || c == '\U{A0}' || c == '\U{1680}'
    || ('\U{2000}' <= c <= '\U{200A}')
    || c == '\U{2028}' || c == '\U{2029}' || c == '\U{202F}' || c == '\U{205F}' || c == '\U{3000}'
  }

  predicate AllSpace(s: string) {
    forall k :: 0 <= k < |s| ==> IsSpace(s[k])
  }

  /** Python's `sep.join(xs)`. */
  function Join(sep: string, xs: seq<string>): string
  {
    if |xs| == 0 then ""
    else if |xs| == 1 then xs[0]
    else xs[0] + sep + Join(sep, xs[1..])
  }

  /** `sep + xs[0] + sep + xs[1] + ...`: every piece preceded by one separator. */
  function Prefixed(sep: string, xs: seq<string>): string
  {
    if |xs| == 0 then "" else sep + xs[0] + Prefixed(sep, xs[1..])
  }

  /** Python's `s.split(c)` for a one-character separator: always at least one piece. */
  function Split(s: string, c: char): (r: seq<string>)
    ensures |r| >= 1
    decreases |s|
  {
    if |s| == 0 then [""]
    else
      var rest := Split(s[1..], c);
      if s[0] == c then [""] + rest
      else [[s[0]] + rest[0]] + rest[1..]
  }

  /** The first position at or after `from` holding `c`, if any. */
  function IndexOf(s: string, c: char, from: nat): (r: Option<nat>)
    requires from <= |s|
    ensures r.Some? ==> from <= r.value < |s| && s[r.value] == c && c !in s[from..r.value]
    ensures r.None? ==> c !in s[from..]
    decreases |s| - from
  {
    if from == |s| then None
    else if s[from] == c then Some(from)
    else IndexOf(s, c, from + 1)
  }

  /** The lines of `s`, as `s.split('\n')`. */
  function Lines(s: string): seq<string> {
    Split(s, '\n')
  }

  /** `s` repeated `n` times, as Python's `s * n`. */
  function Repeat(s: string, n: nat): (r: string)
    ensures |r| == n * |s|
  {
    if n == 0 then "" else s + Repeat(s, n - 1)
  }

  /** Python's `s.lstrip()`: drops the leading whitespace and nothing else. */
  function LStrip(s: string): (r: string)
    ensures EndsWith(s, r)
    ensures AllSpace(s[..|s| - |r|])
    ensures r == [] || !IsSpace(r[0])
    decreases |s|
  {
    if |s| > 0 && IsSpace(s[0]) then
      var r := LStrip(s[1..]);
      assert s[..|s| - |r|] == [s[0]] + s[1..][..|s| - 1 - |r|];
      r
    else s
  }

  /** Python's `s.rstrip()`: drops the trailing whitespace and nothing else. */
  function RStrip(s: string): (r: string)
    ensures StartsWith(s, r)
    ensures AllSpace(s[|r|..])
    ensures r == [] || !IsSpace(r[|r| - 1])
    decreases |s|
  {
    if |s| > 0 && IsSpace(s[|s| - 1]) then
      var r := RStrip(s[..|s| - 1]);
      assert s[|r|..] == s[..|s| - 1][|r|..] + [s[|s| - 1]];
      r
    else s
  }

  /** Python's `s.strip()`. */
  function Strip(s: string): string {
    RStrip(LStrip(s))
  }

  // ---------------------------------------------------------------------------
  // Join

  lemma JoinTwoOrMore(sep: string, x: string, xs: seq<string>)
    requires |xs| >= 1
    ensures Join(sep, [x] + xs) == x + sep + Join(sep, xs)
  {
    assert ([x] + xs)[1..] == xs;
  }

  /** Joining two non-empty lists puts exactly one separator at the seam. */
  lemma {:induction false} JoinAppend(sep: string, xs: seq<string>, ys: seq<string>)
    requires |xs| >= 1 && |ys| >= 1
    ensures Join(sep, xs + ys) == Join(sep, xs) + sep + Join(sep, ys)
    decreases |xs|
  {
    if |xs| == 1 {
      JoinTwoOrMore(sep, xs[0], ys);
      assert xs + ys == [xs[0]] + ys;
    } else {
      assert xs + ys == [xs[0]] + (xs[1..] + ys);
      JoinTwoOrMore(sep, xs[0], xs[1..] + ys);
      JoinAppend(sep, xs[1..], ys);
      JoinTwoOrMore(sep, xs[0], xs[1..]);
      assert xs == [xs[0]] + xs[1..];
    }
  }

  /** A join whose pieces and separator avoid `c` avoids `c`. */
  lemma {:induction false} JoinAvoids(sep: string, xs: seq<string>, c: char)
    requires c !in sep && NoneContains(xs, c)
    ensures c !in Join(sep, xs)
    decreases |xs|
  {
    if |xs| > 1 {
      JoinAvoids(sep, xs[1..], c);
    }
  }

  /** A join led by `h` is `h` followed by one separator before each further piece. */
  lemma {:induction false} JoinIsPrefixed(sep: string, h: string, xs: seq<string>)
    ensures Join(sep, [h] + xs) == h + Prefixed(sep, xs)
    decreases |xs|
  {
    if |xs| > 0 {
      JoinTwoOrMore(sep, h, xs);
      JoinIsPrefixed(sep, xs[0], xs[1..]);
      assert xs == [xs[0]] + xs[1..];
    }
  }

  // ---------------------------------------------------------------------------
  // Split

  /** Text free of the separator is one piece. */
  lemma {:induction false} SplitWithout(s: string, c: char)
    requires c !in s
    ensures Split(s, c) == [s]
    decreases |s|
  {
    if |s| > 0 {
      SplitWithout(s[1..], c);
      assert s == [s[0]] + s[1..];
    }
  }

  /** No piece of a split holds the separator. */
  lemma {:induction false} SplitAvoids(s: string, c: char)
    ensures NoneContains(Split(s, c), c)
    decreases |s|
  {
    if |s| > 0 {
      SplitAvoids(s[1..], c);
      var rest := Split(s[1..], c);
      if s[0] != c {
        assert c !in [s[0]] + rest[0];
      }
    }
  }

  /** One step of the split: the first character either ends the first piece or joins it. */
  lemma SplitCons(h: char, t: string, c: char)
    ensures Split([h] + t, c) == (if h == c then [""] + Split(t, c)
                                  else [[h] + Split(t, c)[0]] + Split(t, c)[1..])
  {
    assert ([h] + t)[1..] == t;
  }

  /** Splitting at a separator occurrence splits the two sides independently. */
  lemma SplitAt(a: string, b: string, c: char)
    ensures Split(a + [c] + b, c) == Split(a, c) + Split(b, c)
  {
    SplitAtText(a + [c] + b, a, b, c);
  }

  lemma {:induction false} SplitAtText(s: string, a: string, b: string, c: char)
    requires s == a + [c] + b
    ensures Split(s, c) == Split(a, c) + Split(b, c)
    decreases |a|
  {
    if |a| == 0 {
      assert s == [c] + b;
      SplitCons(c, b, c);
    } else {
      var t := s[1..];
      assert t == a[1..] + [c] + b;
      SplitAtText(t, a[1..], b, c);
      SplitStep(a[0], t, a[1..], b, c);
      assert s == [a[0]] + t;
      assert a == [a[0]] + a[1..];
    }
  }

  /** Putting the same character in front of two texts keeps their splits related by a common tail. */
  lemma SplitStep(h: char, t: string, u: string, b: string, c: char)
    requires Split(t, c) == Split(u, c) + Split(b, c)
    ensures Split([h] + t, c) == Split([h] + u, c) + Split(b, c)
  {
    SplitCons(h, t, c);
    SplitCons(h, u, c);
    if h != c {
      FirstPieceGrows(h, Split(u, c), Split(b, c));
    }
  }

  /** Growing the first piece of `x + y` grows the first piece of `x`. */
  lemma FirstPieceGrows(h: char, x: seq<string>, y: seq<string>)
    requires |x| >= 1
    ensures [[h] + (x + y)[0]] + (x + y)[1..] == ([[h] + x[0]] + x[1..]) + y
  {
    assert (x + y)[1..] == x[1..] + y;
  }

  /** A blank line between two texts shows up as one empty line between their lines. */
  lemma BlankLineBetween(a: string, b: string)
    ensures Lines(a + "\n\n" + b) == Lines(a) + [""] + Lines(b)
  {
    assert a + "\n\n" + b == a + ['\n'] + ("" + ['\n'] + b);
    SplitAt(a, "" + ['\n'] + b, '\n');
    SplitAt("", b, '\n');
  }

  /** split undoes join when no piece contains the separator. */
  lemma {:induction false} SplitJoin(xs: seq<string>, c: char)
    requires |xs| >= 1 && NoneContains(xs, c)
    ensures Split(Join([c], xs), c) == xs
    decreases |xs|
  {
    if |xs| == 1 {
      SplitWithout(xs[0], c);
    } else {
      SplitAt(xs[0], Join([c], xs[1..]), c);
      SplitWithout(xs[0], c);
      SplitJoin(xs[1..], c);
    }
  }

  /** join undoes split, for every text. */
  lemma {:induction false} JoinSplit(s: string, c: char)
    ensures Join([c], Split(s, c)) == s
    decreases |s|
  {
    if |s| > 0 {
      var rest := Split(s[1..], c);
      JoinSplit(s[1..], c);
      if s[0] == c {
        JoinTwoOrMore([c], "", rest);
        assert s == [c] + s[1..];
      } else {
        var r := [[s[0]] + rest[0]] + rest[1..];
        if |rest| == 1 {
          assert s == [s[0]] + s[1..];
        } else {
          assert r == [[s[0]] + rest[0]] + rest[1..];
          JoinTwoOrMore([c], [s[0]] + rest[0], rest[1..]);
          JoinTwoOrMore([c], rest[0], rest[1..]);
          assert rest == [rest[0]] + rest[1..];
          assert s == [s[0]] + s[1..];
        }
      }
    }
  }

  // ---------------------------------------------------------------------------
  // Strip

  /** Stripping the right end of `a + b` never reaches into `a` once `a` ends in a visible character. */
  lemma {:induction false} RStripAfter(a: string, b: string)
    requires |a| > 0 && !IsSpace(a[|a| - 1])
    ensures RStrip(a + b) == a + RStrip(b)
    decreases |b|
  {
    var s := a + b;
    if |b| == 0 {
      assert s == a;
    } else if IsSpace(b[|b| - 1]) {
      assert s[|s| - 1] == b[|b| - 1];
      assert s[..|s| - 1] == a + b[..|b| - 1];
      RStripAfter(a, b[..|b| - 1]);
      assert RStrip(s) == RStrip(a + b[..|b| - 1]);
      assert RStrip(b) == RStrip(b[..|b| - 1]);
    } else {
      assert s[|s| - 1] == b[|b| - 1];
    }
  }

  /** A text whose first character is visible loses exactly its one leading newline. */
  lemma LStripNewline(x: string)
    requires |x| > 0 && !IsSpace(x[0])
    ensures LStrip("\n" + x) == x
  {
    assert ("\n" + x)[1..] == x;
  }

  /** A text whose last character is visible loses exactly its one trailing newline. */
  lemma RStripNewline(x: string)
    requires |x| > 0 && !IsSpace(x[|x| - 1])
    ensures RStrip(x + "\n") == x
  {
    assert (x + "\n")[..|x + "\n"| - 1] == x;
  }
}

=== FILE: wrappers.dfy ===
/** Optional values and success-or-error values shared by the other modules. */
module Wrappers {

  /** A value that may be absent, as Python's `None` or a failed regex match. */
  datatype Option<+T> = None | Some(value: T)

  /** The outcome of a step that either yields a value or aborts the run with an error. */
  datatype Result<+T, +E> = Ok(value: T) | Err(error: E)

  /**
   Applies a step that may fail to every element in order, stopping at the
   first failure, as a Python loop stops at the first exception.
   */
  function MapAll<T, U, E>(xs: seq<T>, f: T -> Result<U, E>): (r: Result<seq<U>, E>)
    ensures r.Ok? <==> forall k :: 0 <= k < |xs| ==> f(xs[k]).Ok?
    ensures r.Ok? ==> |r.value| == |xs| && forall k :: 0 <= k < |xs| ==> r.value[k] == f(xs[k]).value
    ensures r.Err? ==> exists k :: (0 <= k < |xs| && f(xs[k]) == Err(r.error)
                                    && forall j :: 0 <= j < k ==> f(xs[j]).Ok?)
    decreases |xs|
  {
    if |xs| == 0 then Ok([])
    else
      assert forall k :: 1 <= k < |xs| ==> xs[1..][k - 1] == xs[k];
      match f(xs[0])
      case Err(e) => Err(e)
      case Ok(y) =>
        match MapAll(xs[1..], f)
        case Err(e) => Err(e)
        case Ok(ys) => Ok([y] + ys)
  }
}

